=== FILE: README.md ===
# Cholesky decomposition in la4j, modelled in Dafny

This project models la4j's `CholeskyDecompositor`. It covers three
operations:

- `decompose` builds the lower-triangular factor L of a matrix A row by row,
  using the Cholesky–Banachiewicz recurrence.
- `PositiveDefinitePredicate.test` runs the same recurrence on a scratch
  matrix and uses the sign of each row's residual as a positive-definiteness
  test.
- `applicableTo` is the decompositor's guard. It holds for square, symmetric
  matrices that pass that test.

Doubles are modelled as Dafny `real`. `Math.sqrt` is a parameter
`sqrt: real -> real`. The lemmas that need it require `IsSqrt(sqrt)`: for
every `x >= 0`, `sqrt(x) >= 0` and `sqrt(x) * sqrt(x) == x`.

The project has four modules:

- `Matrices` (Matrices.dfy) defines matrices as sequences of rows, the row
  product `Dot`, and the view `Block` of a Java matrix (an `array2<real>`) as
  its leading rows-by-rows block.
- `CholeskyRecurrence` (Recurrence.dfy) is the recurrence as pure functions:
  - `Below` computes the entries of row j left of the diagonal, or reports
    the zero pivot it would divide by.
  - `FinishRow` completes a row with its clamped square-root pivot and zeros.
  - `Sweep` runs the first m rows under a `Policy`, which says when to stop:
    - `Factorise` (`decompose`) never stops early.
    - `CertifyAsWritten` (`test` as written) stops when the residual is > 0.
    - `CertifyIntended` (`test` as documented) stops when the residual is <= 0.
  - `Certify` turns a sweep into a `Verdict`.

  The module also proves what the rows mean:
  - the relational specification `IsFactorRow`, with soundness and
    completeness;
  - reconstruction of A from L * L^T, and exactly when it holds;
  - the behaviour of the intended test.
- `CholeskyDecompositor` (Decompositor.dfy) holds the imperative code. It has
  `decompose`, `test` and `applicableTo` as methods over `array2<real>`, with
  the same loops as the source, each proved against `Sweep`/`Certify`.
- `CholeskyCases` (Cases.dfy) covers the test as written in closed form,
  the identity matrix, and two 2-by-2 matrices.

A Java `double` division by zero yields an infinity or NaN and the loop goes
on. Real division has no such value. The model therefore stops at the first
zero pivot and reports it:

- `Below` yields `DividesByZero`.
- `Sweep` yields `ZeroPivot`.
- `Decompose` returns `DegeneratePivot`.
- `Test` returns `Undetermined`.

## Model

| member | source | states |
|---|---|---|
| CholeskyDecompositor.Decompose | src/main/java/org/la4j/decomposition/CholeskyDecompositor.java:54-87 | The input matrix is left unchanged. Either exactly one factor comes back, freshly allocated and rows-by-rows, whose entries are the rows that `Sweep(Block(A), sqrt, Factorise, rows)` produces; or the recurrence reaches a zero pivot and the result names it. |
| CholeskyDecompositor.FactorRow | src/main/java/org/la4j/decomposition/CholeskyDecompositor.java:58-84 | One pass of the row loop. If rows 0..j-1 of `l` are the recurrence's first j rows, then afterwards rows 0..j are its first j+1 rows. Or the whole sweep ends at the zero pivot it reports. Only row j is written, and on a zero pivot only its entries left of the diagonal. |
| CholeskyDecompositor.SolveRow | src/main/java/org/la4j/decomposition/CholeskyDecompositor.java:60-75 | The k loop writes exactly the entries of row j left of the diagonal. They equal `Below(a, ls, j, j)`, and `d` is the sum of their squares, unless some pivot L[k][k] is zero. The finished rows and every other entry are untouched. |
| CholeskyDecompositor.RowProduct | src/main/java/org/la4j/decomposition/CholeskyDecompositor.java:64-68 | The i loop sums L[k][i]*L[j][i] for i < k, i.e. returns `Dot` of the two rows over k entries. |
| CholeskyDecompositor.CloseRow | src/main/java/org/la4j/decomposition/CholeskyDecompositor.java:79-83 | Writes the pivot on the diagonal and zeros right of it, so row j of `l` becomes the given row. No other entry changes. |
| CholeskyDecompositor.Test | src/main/java/org/la4j/decomposition/CholeskyDecompositor.java:100-141 | The positive-definite test as written returns `Certify(Block(A), sqrt, CertifyAsWritten)`. It answers false at the first row whose residual is positive, and true if every row has been processed. Its closed form is `CholeskyCases.AsWrittenVerdict`. |
| CholeskyDecompositor.RunTest | src/main/java/org/la4j/decomposition/CholeskyDecompositor.java:102-140 | The body of `test` on a blank scratch matrix, for any stopping policy. The result is exactly `Certify` of the input's block under that policy. |
| CholeskyDecompositor.TestRow | src/main/java/org/la4j/decomposition/CholeskyDecompositor.java:106-138 | One pass of the test's row loop. It either returns early with the final verdict (on the early `return false`, or a zero pivot), or extends the scratch matrix by the next row of the sweep. Only row j is written: on an early return only its entries left of the diagonal, otherwise its first n columns. |
| CholeskyDecompositor.SolveRowCopy | src/main/java/org/la4j/decomposition/CholeskyDecompositor.java:108-126 | The k loop of the test. It works on copies of rows j and k and writes row j back after each entry. It computes the same entries and sum of squares as `decompose`'s loop, `Below(a, ls, j, j)`. |
| CholeskyDecompositor.Product | src/main/java/org/la4j/decomposition/CholeskyDecompositor.java:116-118 | The i loop over the two row copies returns their `Dot` over k entries. |
| CholeskyDecompositor.TestCorrected | src/main/java/org/la4j/decomposition/CholeskyDecompositor.java:128-131 | The corrected test, which rejects a row whose residual is <= 0. It always reaches a definite answer. It accepts exactly when the factorisation runs to the end and every residual is strictly positive. |
| CholeskyDecompositor.ApplicableTo | src/main/java/org/la4j/decomposition/CholeskyDecompositor.java:145-149 | The guard holds exactly when the matrix is square, symmetric and accepted by the positive-definite test as written. Otherwise it is definitely false. |
| CholeskyDecompositor.ApplicableTwice | src/main/java/org/la4j/decomposition/CholeskyDecompositor.java:145-149 | The guard keeps no state: asking twice about the same matrix gives the same answer. |
| CholeskyRecurrence.Below | src/main/java/org/la4j/decomposition/CholeskyDecompositor.java:62-72 | The computed prefix of row j has exactly k entries. A reported zero pivot is a column c < k whose finished row has L[c][c] == 0. |
| CholeskyRecurrence.FinishRow | src/main/java/org/la4j/decomposition/CholeskyDecompositor.java:77-83 | The finished row keeps the entries computed left of the diagonal. Its diagonal is `sqrt(max(residual, 0))` and every entry right of the diagonal is zero. |
| CholeskyRecurrence.Sweep | src/main/java/org/la4j/decomposition/CholeskyDecompositor.java:58-84 | After m rows the sweep either holds m full-width rows, or stopped at a row before m, or hit a zero pivot in a row before the last one processed. |
| CholeskyRecurrence.BelowSound | src/main/java/org/la4j/decomposition/CholeskyDecompositor.java:62-72 | Every entry that `Below` computes solves its column's equation L[j][c]*L[c][c] == A[j][c] - sum_{i<c} L[c][i]*L[j][i]. |
| CholeskyRecurrence.BelowComplete | src/main/java/org/la4j/decomposition/CholeskyDecompositor.java:62-72 | Conversely, a row that satisfies the factor-row equations is what `Below` computes from the rows before it. |
| CholeskyRecurrence.BelowHalts | src/main/java/org/la4j/decomposition/CholeskyDecompositor.java:70 | Once column k's pivot is zero, the row's computation ends by reporting that pivot. |
| CholeskyRecurrence.BelowPersists | src/main/java/org/la4j/decomposition/CholeskyDecompositor.java:62-75 | A reported zero pivot stays the outcome for every later column bound. |
| CholeskyRecurrence.SweepPersists | src/main/java/org/la4j/decomposition/CholeskyDecompositor.java:106-138 | Once the sweep has stopped or hit a zero pivot, later rows change nothing. This is the early `return false` of the test. |
| CholeskyRecurrence.SweepEndsAtZeroPivot | src/main/java/org/la4j/decomposition/CholeskyDecompositor.java:70 | A zero pivot met in row j decides the outcome of the whole sweep. |
| CholeskyRecurrence.SweepEndsAtStop | src/main/java/org/la4j/decomposition/CholeskyDecompositor.java:128-131 | A row whose residual the policy rejects decides the outcome of the whole sweep: it stopped at that row. |
| CholeskyRecurrence.FactoriseNeverStops | src/main/java/org/la4j/decomposition/CholeskyDecompositor.java:58-84 | `decompose` has no early exit: its sweep never stops at a residual. |
| CholeskyRecurrence.CertifierRowsAreFactorRows | src/main/java/org/la4j/decomposition/CholeskyDecompositor.java:106-138 | While the test runs, the rows it has filled in its scratch matrix are exactly the rows `decompose` produces for the same input. |
| CholeskyRecurrence.FinishRowIsFactorRow | src/main/java/org/la4j/decomposition/CholeskyDecompositor.java:62-83 | A row built by `Below` then `FinishRow` satisfies the factor-row specification: the column equations, root of the clamped residual, and zeros above the diagonal. |
| CholeskyRecurrence.SweepSound | src/main/java/org/la4j/decomposition/CholeskyDecompositor.java:58-84 | Every row the sweep produces satisfies the factor-row specification relative to the rows before it. |
| CholeskyRecurrence.SweepComplete | src/main/java/org/la4j/decomposition/CholeskyDecompositor.java:58-84 | Any sequence of rows that satisfies the factor-row specification is what `decompose` produces. |
| CholeskyRecurrence.SweepCharacterised | src/main/java/org/la4j/decomposition/CholeskyDecompositor.java:58-84 | `decompose`'s rows are exactly the rows satisfying the factor-row specification (if and only if). |
| CholeskyRecurrence.FactorProperties | src/main/java/org/la4j/decomposition/CholeskyDecompositor.java:62-83 | A factor that `decompose` returns has three properties. Its strict upper triangle is zero. Each diagonal entry is the non-negative root of the clamped residual A[j][j] - sum_{k<j} L[j][k]^2. Each entry below the diagonal solves its column equation. |
| CholeskyRecurrence.ProductBelowDiagonal | src/main/java/org/la4j/decomposition/CholeskyDecompositor.java:62-72 | For a factor, (L L^T)[i][k] == A[i][k] for every k < i, whatever the signs of the residuals. |
| CholeskyRecurrence.ProductOnDiagonal | src/main/java/org/la4j/decomposition/CholeskyDecompositor.java:77-79 | (L L^T)[j][j] == A[j][j] exactly when row j's residual is non-negative. The clamp at line 79 is what breaks it otherwise. |
| CholeskyRecurrence.Reconstruction | src/main/java/org/la4j/decomposition/CholeskyDecompositor.java:54-87 | The returned L satisfies L L^T == A if and only if A is symmetric and every residual is non-negative. The algorithm reads only the lower triangle of A, so symmetry is needed. |
| CholeskyRecurrence.IntendedSweep | src/main/java/org/la4j/decomposition/CholeskyDecompositor.java:128-131 | With the corrected comparison the test never divides by zero. It is still running after m rows exactly when `decompose`'s first m rows exist and all have positive residuals. |
| CholeskyRecurrence.IntendedAccepts | src/main/java/org/la4j/decomposition/CholeskyDecompositor.java:128-140 | The corrected test answers true if and only if the factorisation runs to the end with every residual strictly positive. |
| CholeskyRecurrence.IntendedAcceptanceGivesFactor | src/main/java/org/la4j/decomposition/CholeskyDecompositor.java:145-149 | If a symmetric matrix passes the corrected test, `decompose` returns an L with L L^T == A and a strictly positive diagonal. This is the guarantee the guard is meant to give `decompose`. |
| CholeskyCases.AsWrittenVerdict | src/main/java/org/la4j/decomposition/CholeskyDecompositor.java:106-140 | Closed form of the test as written: the empty matrix → true; A[0][0] > 0 → false; other 1-by-1 matrices → true; anything larger reaches the zero pivot of row 0. |
| CholeskyCases.AsWrittenMisjudges | src/main/java/org/la4j/decomposition/CholeskyDecompositor.java:130-131 | The test as written rejects every non-empty identity matrix and accepts [-1]. |
| CholeskyCases.IdentityFactor | src/main/java/org/la4j/decomposition/CholeskyDecompositor.java:54-87 | `decompose` returns the identity as the factor of the identity. |
| CholeskyCases.IntendedAcceptsIdentity | src/main/java/org/la4j/decomposition/CholeskyDecompositor.java:128-140 | The corrected test accepts every identity matrix. |
| CholeskyCases.PositiveDefiniteTwoByTwo | src/main/java/org/la4j/decomposition/CholeskyDecompositor.java:54-141 | For A = [[4,2],[2,3]], `decompose` yields [[2,0],[1,√2]]. The corrected test accepts A and the test as written rejects it. |
| CholeskyCases.IndefiniteTwoByTwo | src/main/java/org/la4j/decomposition/CholeskyDecompositor.java:54-141 | For A = [[1,2],[2,1]], the second residual is -3 and is clamped. `decompose` yields [[1,0],[2,0]], whose L L^T is not A, and the corrected test rejects A. |
| Matrices.Block | src/main/java/org/la4j/decomposition/CholeskyDecompositor.java:70-77 | The matrix the recurrence sees has one entry per `get(i, j)` of the leading rows-by-rows block, and is square. |

## Left out

- IEEE arithmetic:
  - The model stops at the first zero pivot instead of dividing by it.
  - In Java, the division at line 70 (line 120 in the test) gives ±∞ or NaN, and the loop goes on.
  - From then on every later row has a non-finite entry in that column. Its residual is -∞ or NaN.
  - `decompose` returns such an L. The model returns `DegeneratePivot` instead.
  - The Java test never sees `d > 0.0` again, so it returns true where the model says `Undetermined`.
- Rounding: all arithmetic is exact real arithmetic. Round-off in the sums, the division and the square root is not modelled.
- `Math.sqrt` is a parameter with the contract above, not a definition.
- The factory, `createMatrix` and `blank` are modelled as allocating a zero `array2<real>`. Matrix storage formats (sparse, dense) are not modelled.
- `getRow`/`setRow` are modelled as a value copy of a row and a write-back. The `Vector` classes are not part of this model.
- `Matrices.SYMMETRIC_MATRIX` is modelled as exact entrywise equality, `Matrices.Symmetric`. Its own implementation is not part of this model.
- Decompose: a matrix with more rows than columns makes the source read past its last column and throw. The model requires at least as many columns as rows instead of modelling the exception.
- Test: the model requires at least as many columns as rows. On a matrix with more rows than columns, Java answers false when A[0][0] > 0, at line 131, before anything out of range is read. Otherwise it throws, either at line 128 when there are no columns or in the zero fill at line 136. The model covers neither outcome. The only caller shown, `applicableTo` (line 146), reaches the test on square matrices only.
- ApplicableTo: returns a three-valued `Verdict` rather than a boolean. `Undetermined` stands for the IEEE path above, on which Java answers true.
- `AbstractDecompositor` and the `MatrixDecompositor` interface (how the decompositor is constructed and called) are not part of this model.

## Findings

| source | as written | input that shows it | evidently intended | confidence | as-written member | corrected member |
|---|---|---|---|---|---|---|
| src/main/java/org/la4j/decomposition/CholeskyDecompositor.java:130-131 | the test returns false as soon as a row's residual is positive, so every accepted row has pivot sqrt(0) = 0 | any non-empty identity matrix, or [[4,2],[2,3]]: rejected although positive definite; [[-1]]: accepted although negative definite | return false when the residual is <= 0 (the documentation at line 99 promises true exactly for positive definite matrices) | high; not executed | CholeskyCases.AsWrittenMisjudges | CholeskyDecompositor.TestCorrected |

=== FILE: Cases.dfy ===
/** What the two certifiers and the factorisation do on particular inputs:
    the closed form of the test as written, the identity, and two 2-by-2
    matrices. */
module CholeskyCases {
  import opened Matrices
  import opened CholeskyRecurrence

  /** The only non-negative root of y * y is y. */
  lemma RootOfSquare(r: real, y: real)
    requires IsRoot(r, y * y) && y >= 0.0
    ensures r == y
  {
    assert (r - y) * (r + y) == r * r - y * y == 0.0;
    if r + y != 0.0 {
      assert r - y == 0.0;
    }
  }

  lemma RootOfZero(sqrt: real -> real)
    requires IsSqrt(sqrt)
    ensures sqrt(0.0) == 0.0
  {
    assert IsRoot(sqrt(0.0), 0.0 * 0.0);
    RootOfSquare(sqrt(0.0), 0.0);
  }

  /** The test as written, in closed form. Row 0 has residual A[0][0]; a
      positive one is rejected at once, anything else is accepted with the
      pivot sqrt(0) == 0, and row 1 then divides by that pivot. So the test
      never gets past row 1: it rejects every matrix with a positive corner,
      accepts the empty matrix and every 1-by-1 matrix that is not positive,
      and reaches a zero pivot on every larger one. */
  lemma AsWrittenVerdict(a: Matrix, sqrt: real -> real)
    requires IsSqrt(sqrt) && IsSquare(a)
    ensures Certify(a, sqrt, CertifyAsWritten) ==
      if |a| == 0 then Definite(true)
      else if a[0][0] > 0.0 then Definite(false)
      else if |a| == 1 then Definite(true)
      else Undetermined(0)
  {
    var n := |a|;
    if n > 0 {
      assert Below(a, [], 0, 0) == Computed([]);
      assert Residual(a, 0, []) == a[0][0];
      if a[0][0] > 0.0 {
        assert Sweep(a, sqrt, CertifyAsWritten, 1) == Stopped(0);
        SweepPersists(a, sqrt, CertifyAsWritten, 1, n);
      } else {
        var row := FinishRow(a, sqrt, []);
        assert Sweep(a, sqrt, CertifyAsWritten, 1) == Running([row]);
        RootOfZero(sqrt);
        assert row[0] == 0.0;
        if n > 1 {
          assert Below(a, [row], 1, 0) == Computed([]);
          assert Below(a, [row], 1, 1) == DividesByZero(0);
          assert Sweep(a, sqrt, CertifyAsWritten, 2) == ZeroPivot(0);
          SweepPersists(a, sqrt, CertifyAsWritten, 2, n);
        }
      }
    }
  }

  /** In particular the test as written rejects every non-empty identity matrix, and
      accepts the 1-by-1 matrix [-1], which is not positive definite. */
  lemma AsWrittenMisjudges(sqrt: real -> real, n: nat)
    requires IsSqrt(sqrt) && n > 0
    ensures Certify(Identity(n), sqrt, CertifyAsWritten) == Definite(false)
    ensures Certify([[-1.0]], sqrt, CertifyAsWritten) == Definite(true)
  {
    AsWrittenVerdict(Identity(n), sqrt);
    AsWrittenVerdict([[-1.0]], sqrt);
  }

  /** The identity is its own Cholesky factor. */
  lemma IdentityFactor(sqrt: real -> real, n: nat)
    requires IsSqrt(sqrt)
    ensures Sweep(Identity(n), sqrt, Factorise, n) == Running(Identity(n))
  {
    var id := Identity(n);
    assert IsRoot(sqrt(1.0), 1.0 * 1.0);
    RootOfSquare(sqrt(1.0), 1.0);
    forall j | 0 <= j < n
      ensures IsFactorRow(id, sqrt, id, j)
    {
      forall k | 0 <= k < j
        ensures SolvesColumn(id, id, j, id[j], k)
      {
        DotOfZeros(id[k], id[j], k);
      }
      DotOfZeros(id[j], id[j], j);
      assert Residual(id, j, id[j]) == 1.0;
    }
    SweepComplete(id, sqrt, id);
  }

  /** The intended test accepts every identity matrix. */
  lemma IntendedAcceptsIdentity(sqrt: real -> real, n: nat)
    requires IsSqrt(sqrt)
    ensures Certify(Identity(n), sqrt, CertifyIntended) == Definite(true)
  {
    var id := Identity(n);
    IdentityFactor(sqrt, n);
    forall j | 0 <= j < n
      ensures Residual(id, j, id[j]) > 0.0
    {
      DotOfZeros(id[j], id[j], j);
    }
    IntendedAccepts(id, sqrt);
  }

  /** A = [[4, 2], [2, 3]] is positive definite with L = [[2, 0], [1, sqrt 2]]:
      `decompose` returns that L, the intended test accepts A and the test as
      written rejects it. */
  lemma PositiveDefiniteTwoByTwo(sqrt: real -> real)
    requires IsSqrt(sqrt)
    ensures var a := [[4.0, 2.0], [2.0, 3.0]];
      Sweep(a, sqrt, Factorise, 2) == Running([[2.0, 0.0], [1.0, sqrt(2.0)]]) &&
      Certify(a, sqrt, CertifyIntended) == Definite(true) &&
      Certify(a, sqrt, CertifyAsWritten) == Definite(false)
  {
    var a := [[4.0, 2.0], [2.0, 3.0]];
    assert IsRoot(sqrt(4.0), 2.0 * 2.0);
    RootOfSquare(sqrt(4.0), 2.0);
    var row0 := FinishRow(a, sqrt, []);
    assert Below(a, [], 0, 0) == Computed([]);
    assert row0 == [2.0, 0.0];
    assert Sweep(a, sqrt, Factorise, 1) == Running([row0]);
    assert Below(a, [row0], 1, 0) == Computed([]);
    assert Below(a, [row0], 1, 1) == Computed([1.0]);
    assert Residual(a, 1, [1.0]) == 2.0;
    assert FinishRow(a, sqrt, [1.0]) == [1.0, sqrt(2.0)];
    assert Sweep(a, sqrt, Factorise, 2) == Running([row0, [1.0, sqrt(2.0)]]);
    assert Sweep(a, sqrt, CertifyIntended, 1) == Running([row0]);
    assert Sweep(a, sqrt, CertifyIntended, 2) == Running([row0, [1.0, sqrt(2.0)]]);
    AsWrittenVerdict(a, sqrt);
  }

  /** A = [[1, 2], [2, 1]] is symmetric but not positive definite: its second
      residual is -3, so `decompose` clamps it and returns L = [[1, 0], [2, 0]],
      whose L * L^T is not A, and the intended test rejects A. */
  lemma IndefiniteTwoByTwo(sqrt: real -> real)
    requires IsSqrt(sqrt)
    ensures var a := [[1.0, 2.0], [2.0, 1.0]];
      Sweep(a, sqrt, Factorise, 2) == Running([[1.0, 0.0], [2.0, 0.0]]) &&
      !TimesTransposeIs([[1.0, 0.0], [2.0, 0.0]], a) &&
      Certify(a, sqrt, CertifyIntended) == Definite(false)
  {
    var a := [[1.0, 2.0], [2.0, 1.0]];
    assert IsRoot(sqrt(1.0), 1.0 * 1.0);
    RootOfSquare(sqrt(1.0), 1.0);
    RootOfZero(sqrt);
    var row0 := FinishRow(a, sqrt, []);
    assert Below(a, [], 0, 0) == Computed([]);
    assert row0 == [1.0, 0.0];
    assert Sweep(a, sqrt, Factorise, 1) == Running([row0]);
    assert Below(a, [row0], 1, 0) == Computed([]);
    assert Below(a, [row0], 1, 1) == Computed([2.0]);
    assert Residual(a, 1, [2.0]) == -3.0;
    assert FinishRow(a, sqrt, [2.0]) == [2.0, 0.0];
    assert Sweep(a, sqrt, Factorise, 2) == Running([row0, [2.0, 0.0]]);
    var l := [[1.0, 0.0], [2.0, 0.0]];
    assert Dot(l[1], l[1], 2) == 4.0;
    assert Sweep(a, sqrt, CertifyIntended, 1) == Running([row0]);
    assert Sweep(a, sqrt, CertifyIntended, 2) == Stopped(1);
  }
}

=== FILE: Decompositor.dfy ===
/** The decompositor itself: `decompose`, the positive-definite predicate's
    `test` and `applicableTo`, working on arrays as the library's matrices do.
    The input matrix is only read; every write goes to a freshly allocated
    matrix. */
module CholeskyDecompositor {
  import opened Matrices
  import opened CholeskyRecurrence

  datatype Option<T> = None | Some(value: T)

  /** What `decompose` hands back: the one-element array { L }, or the pivot
      L[k][k] whose zero value the recurrence would divide by. */
  datatype Decomposition = Factors(factors: seq<array2<real>>) | DegeneratePivot(pivot: nat)

  /** Matrix.getRow: a copy of row j. */
  function RowOf(l: array2<real>, j: nat): (row: seq<real>)
    requires j < l.Length0
    reads l
    ensures |row| == l.Length1 && forall c :: 0 <= c < |row| ==> row[c] == l[j, c]
  {
    seq(l.Length1, c requires 0 <= c < l.Length1 reads l => l[j, c])
  }

  /** Matrix.setRow: overwrite row j with `row`. */
  method SetRow(l: array2<real>, j: nat, row: seq<real>)
    requires j < l.Length0 && |row| == l.Length1
    modifies l
    ensures forall r, c :: 0 <= r < l.Length0 && 0 <= c < l.Length1 ==>
      l[r, c] == if r == j then row[c] else old(l[r, c])
  {
    forall c | 0 <= c < l.Length1 {
      l[j, c] := row[c];
    }
  }

  /** The first |ls| rows of l agree with the rows ls up to column n. */
  ghost predicate RowsAre(l: array2<real>, ls: Matrix, n: nat)
    reads l
  {
    |ls| <= l.Length0 && n <= l.Length1 && RowsOfWidth(ls, n) &&
    forall r, c :: 0 <= r < |ls| && 0 <= c < n ==> l[r, c] == ls[r][c]
  }

  /** The end of row j: the diagonal entry, then the loop that clears every
      entry right of it up to column n. Row j then holds `row`, whose entries
      left of the diagonal were already in place. */
  method CloseRow(l: array2<real>, j: nat, n: nat, root: real, ghost ls: Matrix, ghost row: seq<real>)
    requires j < n <= l.Length1 && j < l.Length0 && |ls| == j && RowsAre(l, ls, n)
    requires |row| == n && row[j] == root && forall c :: j < c < n ==> row[c] == 0.0
    requires forall c :: 0 <= c < j ==> l[j, c] == row[c]
    modifies l
    ensures RowsAre(l, ls + [row], n)
    ensures forall c :: 0 <= c < n ==> l[j, c] == row[c]
    ensures forall r, c :: 0 <= r < l.Length0 && 0 <= c < l.Length1 && (r != j || n <= c) ==>
      l[r, c] == old(l[r, c])
  {
    l[j, j] := root;
    for c := j + 1 to n
      invariant forall c' :: 0 <= c' < c ==> l[j, c'] == row[c']
      invariant forall r, c' :: 0 <= r < l.Length0 && 0 <= c' < l.Length1 && (r != j || n <= c') ==>
        l[r, c'] == old(l[r, c'])
    {
      l[j, c] := 0.0;
    }
    assert forall r :: 0 <= r < j ==> (ls + [row])[r] == ls[r];
  }

  /** The innermost loop of `decompose`: sum_{i<k} L[k][i] * L[j][i], read
      straight from the matrix, whose first k entries of rows k and j are x
      and y. */
  method RowProduct(l: array2<real>, k: nat, j: nat, ghost x: seq<real>, ghost y: seq<real>) returns (s: real)
    requires k < l.Length0 && j < l.Length0 && k <= l.Length1 && k <= |x| && k <= |y|
    requires forall i :: 0 <= i < k ==> l[k, i] == x[i] && l[j, i] == y[i]
    ensures s == Dot(x, y, k)
  {
    s := 0.0;
    for i := 0 to k
      invariant s == Dot(x, y, i)
    {
      s := s + l[k, i] * l[j, i];
    }
  }

  /** The innermost loop of the positive-definite test: the same sum over
      the two row copies. */
  method Product(rowk: seq<real>, rowj: seq<real>, k: nat) returns (s: real)
    requires k <= |rowk| && k <= |rowj|
    ensures s == Dot(rowk, rowj, k)
  {
    s := 0.0;
    for i := 0 to k
      invariant s == Dot(rowk, rowj, i)
    {
      s := s + rowk[i] * rowj[i];
    }
  }

  /** The column loop of `decompose` for row j: L[j][k] for every k < j, from
      the finished rows above it, and the sum of their squares; or the first
      pivot L[k][k] that is zero. Only entries left of the diagonal of row j
      are written. */
  method SolveRow(A: array2<real>, l: array2<real>, j: nat, ghost a: Matrix, ghost ls: Matrix)
    returns (zero: Option<nat>, d: real, ghost e: seq<real>)
    requires A.Length0 <= A.Length1 && l != A && a == Block(A)
    requires l.Length0 == l.Length1 == A.Length0 && j < A.Length0
    requires |ls| == j && RowsOfWidth(ls, A.Length0)
    requires RowsAre(l, ls, A.Length0)
    modifies l
    ensures RowsAre(l, ls, A.Length0)
    ensures forall r, c :: 0 <= r < l.Length0 && r != j && 0 <= c < l.Length1 ==> l[r, c] == old(l[r, c])
    ensures forall c :: j <= c < l.Length1 ==> l[j, c] == old(l[j, c])
    ensures zero.None? ==>
      Below(a, ls, j, j) == Computed(e) && d == Dot(e, e, j) &&
      forall c :: 0 <= c < j ==> l[j, c] == e[c]
    ensures zero.Some? ==> Below(a, ls, j, j) == DividesByZero(zero.value)
  {
    d := 0.0;
    e := [];
    for k := 0 to j
      invariant Below(a, ls, j, k) == Computed(e)
      invariant d == Dot(e, e, k)
      invariant forall c :: 0 <= c < k ==> l[j, c] == e[c]
      invariant RowsAre(l, ls, A.Length0)
      invariant forall r, c :: 0 <= r < l.Length0 && r != j && 0 <= c < l.Length1 ==> l[r, c] == old(l[r, c])
      invariant forall c :: k <= c < l.Length1 ==> l[j, c] == old(l[j, c])
    {
      var s := RowProduct(l, k, j, ls[k], e);
      if l[k, k] == 0.0 {
        BelowHalts(a, ls, j, k, e);
        return Some(k), d, e;
      }
      assert A[j, k] == a[j][k];
      s := (A[j, k] - s) / l[k, k];
      l[j, k] := s;
      BelowStep(a, ls, j, k, e);
      DotAppend(e, s);
      e := e + [s];
      d := d + s * s;
    }
    zero := None;
  }

  /** One pass of the row loop of `decompose`: row j of L from the rows above
      it, or the zero pivot that stops the recurrence. */
  method FactorRow(A: array2<real>, l: array2<real>, j: nat, sqrt: real -> real, ghost a: Matrix, ghost ls: Matrix)
    returns (zero: Option<nat>, ghost ls': Matrix)
    requires A.Length0 <= A.Length1 && l != A && a == Block(A)
    requires l.Length0 == l.Length1 == A.Length0 && j < A.Length0
    requires Sweep(a, sqrt, Factorise, j) == Running(ls) && RowsAre(l, ls, A.Length0)
    modifies l
    ensures zero.Some? ==> Sweep(a, sqrt, Factorise, A.Length0) == ZeroPivot(zero.value)
    ensures zero.None? ==>
      Sweep(a, sqrt, Factorise, j + 1) == Running(ls') && RowsAre(l, ls', A.Length0)
    ensures forall r, c :: 0 <= r < l.Length0 && r != j && 0 <= c < l.Length1 ==> l[r, c] == old(l[r, c])
    ensures zero.Some? ==> forall c :: j <= c < l.Length1 ==> l[j, c] == old(l[j, c])
  {
    var n := A.Length0;
    var d;
    ghost var e;
    zero, d, e := SolveRow(A, l, j, a, ls);
    if zero.Some? {
      SweepEndsAtZeroPivot(a, sqrt, Factorise, ls, zero.value);
      return zero, ls;
    }
    assert A[j, j] == a[j][j];
    d := A[j, j] - d;
    assert d == Residual(a, j, e);
    ghost var row := FinishRow(a, sqrt, e);
    CloseRow(l, j, n, sqrt(Max0(d)), ls, row);
    SweepStep(a, sqrt, Factorise, ls, e);
    ls' := ls + [row];
  }

  /** The Cholesky–Banachiewicz factorisation of the leading square block of A,
      row by row into a fresh rows-by-rows matrix. */
  method Decompose(A: array2<real>, sqrt: real -> real) returns (r: Decomposition)
    requires A.Length0 <= A.Length1
    ensures unchanged(A)
    ensures r.Factors? ==>
      |r.factors| == 1 && fresh(r.factors[0]) &&
      r.factors[0].Length0 == r.factors[0].Length1 == A.Length0 &&
      Sweep(Block(A), sqrt, Factorise, A.Length0) == Running(Block(r.factors[0]))
    ensures r.DegeneratePivot? ==>
      Sweep(Block(A), sqrt, Factorise, A.Length0) == ZeroPivot(r.pivot)
  {
    ghost var a := Block(A);
    var n := A.Length0;
    var l := new real[n, n]((_, _) => 0.0);
    ghost var ls: Matrix := [];
    for j := 0 to n
      invariant Sweep(a, sqrt, Factorise, j) == Running(ls)
      invariant RowsAre(l, ls, n)
    {
      var zero;
      zero, ls := FactorRow(A, l, j, sqrt, a, ls);
      if zero.Some? {
        return DegeneratePivot(zero.value);
      }
    }
    BlockOf(l, ls);
    r := Factors([l]);
  }

  /** The column loop of the positive-definite test for row j: the same
      recurrence as SolveRow, over a copy of row j that is written back into
      the scratch matrix after every column. */
  method SolveRowCopy(A: array2<real>, l: array2<real>, j: nat, ghost a: Matrix, ghost ls: Matrix)
    returns (zero: Option<nat>, d: real, ghost e: seq<real>)
    requires A.Length0 <= A.Length1 && l != A && a == Block(A)
    requires l.Length0 == A.Length0 && l.Length1 == A.Length1 && j < A.Length0
    requires |ls| == j && RowsOfWidth(ls, A.Length0)
    requires RowsAre(l, ls, A.Length0)
    modifies l
    ensures RowsAre(l, ls, A.Length0)
    ensures forall r, c :: 0 <= r < l.Length0 && r != j && 0 <= c < l.Length1 ==> l[r, c] == old(l[r, c])
    ensures forall c :: j <= c < l.Length1 ==> l[j, c] == old(l[j, c])
    ensures zero.None? ==>
      Below(a, ls, j, j) == Computed(e) && d == Dot(e, e, j) &&
      forall c :: 0 <= c < j ==> l[j, c] == e[c]
    ensures zero.Some? ==> Below(a, ls, j, j) == DividesByZero(zero.value)
  {
    var rowj := RowOf(l, j);
    d := 0.0;
    e := [];
    for k := 0 to j
      invariant Below(a, ls, j, k) == Computed(e)
      invariant d == Dot(e, e, k)
      invariant |rowj| == l.Length1
      invariant forall c :: 0 <= c < k ==> rowj[c] == e[c] && l[j, c] == e[c]
      invariant RowsAre(l, ls, A.Length0)
      invariant forall r, c :: 0 <= r < l.Length0 && r != j && 0 <= c < l.Length1 ==> l[r, c] == old(l[r, c])
      invariant forall c :: k <= c < l.Length1 ==> l[j, c] == old(l[j, c]) && rowj[c] == l[j, c]
    {
      var rowk := RowOf(l, k);
      var s := Product(rowk, rowj, k);
      DotPrefix(rowk, rowj, ls[k], e, k);
      if l[k, k] == 0.0 {
        BelowHalts(a, ls, j, k, e);
        return Some(k), d, e;
      }
      assert A[j, k] == a[j][k];
      s := (A[j, k] - s) / l[k, k];
      rowj := rowj[k := s];
      SetRow(l, j, rowj);
      BelowStep(a, ls, j, k, e);
      DotAppend(e, s);
      e := e + [s];
      d := d + s * s;
    }
    zero := None;
  }

  /** One pass of the row loop of the positive-definite test: row j of the
      scratch matrix, or the verdict the test returns early with. The rule
      that returns false on a residual d is StopsAt(policy, d): `d > 0` as
      written, `d <= 0` as the documentation intends. */
  method TestRow(A: array2<real>, l: array2<real>, j: nat, sqrt: real -> real, policy: Policy,
                 ghost a: Matrix, ghost ls: Matrix)
    returns (early: Option<Verdict>, ghost ls': Matrix)
    requires A.Length0 <= A.Length1 && l != A && a == Block(A)
    requires l.Length0 == A.Length0 && l.Length1 == A.Length1 && j < A.Length0
    requires Sweep(a, sqrt, policy, j) == Running(ls) && RowsAre(l, ls, A.Length0)
    modifies l
    ensures early.Some? ==> early.value == Certify(a, sqrt, policy)
    ensures early.None? ==>
      Sweep(a, sqrt, policy, j + 1) == Running(ls') && RowsAre(l, ls', A.Length0)
    ensures forall r, c :: 0 <= r < l.Length0 && r != j && 0 <= c < l.Length1 ==> l[r, c] == old(l[r, c])
    ensures early.None? ==> forall c :: A.Length0 <= c < l.Length1 ==> l[j, c] == old(l[j, c])
    ensures early.Some? ==> forall c :: j <= c < l.Length1 ==> l[j, c] == old(l[j, c])
  {
    var n := A.Length0;
    var zero, d;
    ghost var e;
    zero, d, e := SolveRowCopy(A, l, j, a, ls);
    if zero.Some? {
      SweepEndsAtZeroPivot(a, sqrt, policy, ls, zero.value);
      return Some(Undetermined(zero.value)), ls;
    }
    assert A[j, j] == a[j][j];
    d := A[j, j] - d;
    assert d == Residual(a, j, e);
    if StopsAt(policy, d) {
      SweepEndsAtStop(a, sqrt, policy, ls, e);
      return Some(Definite(false)), ls;
    }
    ghost var row := FinishRow(a, sqrt, e);
    CloseRow(l, j, n, sqrt(Max0(d)), ls, row);
    SweepStep(a, sqrt, policy, ls, e);
    early, ls' := None, ls + [row];
  }

  /** The positive-definite test's body under a given rule: the recurrence
      over a private blank matrix, returning false at the first row the rule
      rejects and true when every row passes. */
  method RunTest(A: array2<real>, sqrt: real -> real, policy: Policy) returns (v: Verdict)
    requires A.Length0 <= A.Length1
    ensures v == Certify(Block(A), sqrt, policy)
  {
    ghost var a := Block(A);
    var n := A.Length0;
    var l := new real[n, A.Length1]((_, _) => 0.0);
    ghost var ls: Matrix := [];
    for j := 0 to n
      invariant Sweep(a, sqrt, policy, j) == Running(ls)
      invariant RowsAre(l, ls, n)
    {
      var early;
      early, ls := TestRow(A, l, j, sqrt, policy, a, ls);
      if early.Some? {
        return early.value;
      }
    }
    v := Definite(true);
  }

  /** PositiveDefinitePredicate.test as written: false at the first row whose
      residual is positive. */
  method Test(A: array2<real>, sqrt: real -> real) returns (v: Verdict)
    requires A.Length0 <= A.Length1
    ensures v == Certify(Block(A), sqrt, CertifyAsWritten)
  {
    v := RunTest(A, sqrt, CertifyAsWritten);
  }

  /** The test with its comparison turned round (false at the first residual
      that is not positive): it never divides by zero, and it accepts exactly
      the matrices whose factorisation runs through with positive residuals. */
  method TestCorrected(A: array2<real>, sqrt: real -> real) returns (v: Verdict)
    requires IsSqrt(sqrt) && A.Length0 <= A.Length1
    ensures v.Definite?
    ensures v.holds <==>
      Sweep(Block(A), sqrt, Factorise, A.Length0).Running? &&
      PositiveResiduals(Block(A), Sweep(Block(A), sqrt, Factorise, A.Length0).rows)
  {
    v := RunTest(A, sqrt, CertifyIntended);
    IntendedIsDefinite(Block(A), sqrt);
    IntendedAccepts(Block(A), sqrt);
  }

  /** applicableTo: square, then symmetric, then positive definite, each test
      reached only when the one before it held. */
  method ApplicableTo(A: array2<real>, sqrt: real -> real) returns (v: Verdict)
    ensures v == if A.Length0 == A.Length1 && Symmetric(Block(A))
                 then Certify(Block(A), sqrt, CertifyAsWritten)
                 else Definite(false)
  {
    if A.Length0 == A.Length1 && Symmetric(Block(A)) {
      v := Test(A, sqrt);
    } else {
      v := Definite(false);
    }
  }

  /** The guard keeps no state: asking twice about the same matrix gives the
      same answer. */
  method ApplicableTwice(A: array2<real>, sqrt: real -> real) returns (first: Verdict, second: Verdict)
    ensures first == second
  {
    first := ApplicableTo(A, sqrt);
    second := ApplicableTo(A, sqrt);
  }
}

=== FILE: Matrices.dfy ===
/** Dense real matrices seen as sequences of rows, and the row products that
    the Cholesky recurrence is built from. */
module Matrices {

  /** A matrix as the sequence of its rows. */
  type Matrix = seq<seq<real>>

  /** Every row of `m` holds exactly `width` entries. */
  predicate RowsOfWidth(m: Matrix, width: nat) {
    forall i :: 0 <= i < |m| ==> |m[i]| == width
  }

  /** As many entries per row as there are rows. */
  predicate IsSquare(a: Matrix) {
    RowsOfWidth(a, |a|)
  }

  /** The symmetric-matrix test the guard delegates to: a[i][j] == a[j][i]. */
  predicate Symmetric(a: Matrix)
    requires IsSquare(a)
  {
    forall i, j :: 0 <= i < |a| && 0 <= j < |a| ==> a[i][j] == a[j][i]
  }

  /** x[0]*y[0] + ... + x[k-1]*y[k-1], accumulated left to right. */
  function Dot(x: seq<real>, y: seq<real>, k: nat): real
    requires k <= |x| && k <= |y|
  {
    if k == 0 then 0.0 else Dot(x, y, k - 1) + x[k - 1] * y[k - 1]
  }

  /** A sum over the first k entries depends on those entries only. */
  lemma {:induction false} DotPrefix(x: seq<real>, y: seq<real>, x': seq<real>, y': seq<real>, k: nat)
    requires k <= |x| && k <= |y| && k <= |x'| && k <= |y'|
    requires forall i :: 0 <= i < k ==> x[i] == x'[i] && y[i] == y'[i]
    ensures Dot(x, y, k) == Dot(x', y', k)
  {
    if k > 0 {
      DotPrefix(x, y, x', y', k - 1);
    }
  }

  lemma {:induction false} DotSymmetric(x: seq<real>, y: seq<real>, k: nat)
    requires k <= |x| && k <= |y|
    ensures Dot(x, y, k) == Dot(y, x, k)
  {
    if k > 0 {
      DotSymmetric(x, y, k - 1);
    }
  }

  /** When y is zero past index k, the sum over n entries stops at k + 1. */
  lemma {:induction false} DotZeroTail(x: seq<real>, y: seq<real>, k: nat, n: nat)
    requires k < n <= |x| && n <= |y|
    requires forall i :: k < i < n ==> y[i] == 0.0
    ensures Dot(x, y, n) == Dot(x, y, k + 1)
  {
    if n > k + 1 {
      DotZeroTail(x, y, k, n - 1);
    }
  }

  /** Appending one entry to both factors adds its square to their sum. */
  lemma DotAppend(e: seq<real>, s: real)
    ensures Dot(e + [s], e + [s], |e| + 1) == Dot(e, e, |e|) + s * s
  {
    DotPrefix(e, e, e + [s], e + [s], |e|);
  }

  /** A sum whose left factors are all zero is zero. */
  lemma {:induction false} DotOfZeros(x: seq<real>, y: seq<real>, k: nat)
    requires k <= |x| && k <= |y|
    requires forall i :: 0 <= i < k ==> x[i] == 0.0
    ensures Dot(x, y, k) == 0.0
  {
    if k > 0 {
      DotOfZeros(x, y, k - 1);
    }
  }

  function Zeros(n: nat): (z: seq<real>)
    ensures |z| == n && forall i :: 0 <= i < n ==> z[i] == 0.0
  {
    seq(n, _ => 0.0)
  }

  /** The leading rows-by-rows block of a matrix with at least as many columns
      as rows: the entries the factorisation reads through `get`. */
  function Block(A: array2<real>): (a: Matrix)
    requires A.Length0 <= A.Length1
    reads A
    ensures |a| == A.Length0 && IsSquare(a)
    ensures forall i, j :: 0 <= i < |a| && 0 <= j < |a| ==> a[i][j] == A[i, j]
  {
    seq(A.Length0, i requires 0 <= i < A.Length0 reads A =>
      seq(A.Length0, j requires 0 <= j < A.Length0 reads A => A[i, j]))
  }

  /** A square array whose entries are those of `m` has `m` as its block. */
  lemma BlockOf(A: array2<real>, m: Matrix)
    requires A.Length0 == A.Length1 == |m| && RowsOfWidth(m, |m|)
    requires forall i, j :: 0 <= i < |m| && 0 <= j < |m| ==> A[i, j] == m[i][j]
    ensures Block(A) == m
  {
    assert forall i :: 0 <= i < |m| ==> Block(A)[i] == m[i];
  }

  /** The n-by-n identity matrix. */
  function Identity(n: nat): (id: Matrix)
    ensures |id| == n && IsSquare(id)
    ensures forall i, j :: 0 <= i < n && 0 <= j < n ==> id[i][j] == if i == j then 1.0 else 0.0
  {
    seq(n, i => seq(n, j => if i == j then 1.0 else 0.0))
  }
}

=== FILE: Recurrence.dfy ===
/** The Cholesky–Banachiewicz recurrence shared by `decompose` and by the
    positive-definite test, as pure functions over the input's leading square
    block, with what it computes proved about it. */
module CholeskyRecurrence {
  import opened Matrices

  /** What java.lang.Math.sqrt promises on the non-negative reals, taken
      exactly: a non-negative root whose square is its argument. */
  ghost predicate IsSqrt(sqrt: real -> real) {
    forall x: real :: 0.0 <= x ==> IsRoot(sqrt(x), x)
  }

  /** r is the non-negative square root of x. */
  ghost predicate IsRoot(r: real, x: real) {
    0.0 <= r && r * r == x
  }

  /** Math.max(d, 0.0): the clamp applied before the square root. */
  function Max0(d: real): real {
    if d >= 0.0 then d else 0.0
  }

  /** What happens to a row whose residual is d: `decompose` never stops, the
      positive-definite test as written stops when d > 0, and the test as its
      documentation intends stops when d <= 0. */
  datatype Policy = Factorise | CertifyAsWritten | CertifyIntended

  predicate StopsAt(policy: Policy, d: real) {
    match policy
    case Factorise => false
    case CertifyAsWritten => d > 0.0
    case CertifyIntended => d <= 0.0
  }

  /** The entries of row j left of column k, or the column whose pivot is zero. */
  datatype Prefix = Computed(e: seq<real>) | DividesByZero(pivot: nat)

  /** Row j of L from column 0 up to k, given the finished rows `prior`:
      L[j][c] = (A[j][c] - sum_{i<c} L[c][i]*L[j][i]) / L[c][c]. */
  function Below(a: Matrix, prior: Matrix, j: nat, k: nat): (r: Prefix)
    requires IsSquare(a) && j < |a| && k <= j <= |prior| && RowsOfWidth(prior, |a|)
    ensures r.Computed? ==> |r.e| == k
    ensures r.DividesByZero? ==> r.pivot < k && prior[r.pivot][r.pivot] == 0.0
  {
    if k == 0 then Computed([])
    else
      match Below(a, prior, j, k - 1)
      case DividesByZero(p) => DividesByZero(p)
      case Computed(e) =>
        if prior[k - 1][k - 1] == 0.0 then DividesByZero(k - 1)
        else Computed(e + [(a[j][k - 1] - Dot(prior[k - 1], e, k - 1)) / prior[k - 1][k - 1]])
  }

  /** d = A[j][j] - sum_{k<j} L[j][k]^2, the quantity under the square root. */
  function Residual(a: Matrix, j: nat, row: seq<real>): real
    requires IsSquare(a) && j < |a| && j <= |row|
  {
    a[j][j] - Dot(row, row, j)
  }

  /** Row |e| of L once its entries left of the diagonal are e: the root of
      the clamped residual on the diagonal and zeros to its right. */
  function FinishRow(a: Matrix, sqrt: real -> real, e: seq<real>): (row: seq<real>)
    requires IsSquare(a) && |e| < |a|
    ensures |row| == |a| && row[..|e|] == e
    ensures row[|e|] == sqrt(Max0(Residual(a, |e|, e)))
    ensures forall c :: |e| < c < |a| ==> row[c] == 0.0
  {
    e + [sqrt(Max0(Residual(a, |e|, e)))] + Zeros(|a| - |e| - 1)
  }

  /** The state of the row loop after m rows: the finished rows of L, the row
      at which a certifier returned early, or the zero pivot reached. */
  datatype Progress = Running(rows: Matrix) | Stopped(row: nat) | ZeroPivot(pivot: nat)

  function Sweep(a: Matrix, sqrt: real -> real, policy: Policy, m: nat): (p: Progress)
    requires IsSquare(a) && m <= |a|
    ensures p.Running? ==> |p.rows| == m && RowsOfWidth(p.rows, |a|)
    ensures p.Stopped? ==> p.row < m
    ensures p.ZeroPivot? ==> p.pivot + 1 < m
  {
    if m == 0 then Running([])
    else
      match Sweep(a, sqrt, policy, m - 1)
      case Running(ls) =>
        (match Below(a, ls, m - 1, m - 1)
         case DividesByZero(k) => ZeroPivot(k)
         case Computed(e) =>
           if StopsAt(policy, Residual(a, m - 1, e)) then Stopped(m - 1)
           else Running(ls + [FinishRow(a, sqrt, e)]))
      case Stopped(j) => Stopped(j)
      case ZeroPivot(k) => ZeroPivot(k)
  }

  /** The answer of a certifier: a boolean, or the pivot it divided by zero. */
  datatype Verdict = Definite(holds: bool) | Undetermined(pivot: nat)

  function Certify(a: Matrix, sqrt: real -> real, policy: Policy): Verdict
    requires IsSquare(a)
  {
    match Sweep(a, sqrt, policy, |a|)
    case Running(_) => Definite(true)
    case Stopped(_) => Definite(false)
    case ZeroPivot(k) => Undetermined(k)
  }

  /** Column c of row e solves the recurrence against the rows `prior`. */
  ghost predicate SolvesColumn(a: Matrix, prior: Matrix, j: nat, e: seq<real>, c: nat)
    requires IsSquare(a) && c < j < |a| && c < |e| && c < |prior| && RowsOfWidth(prior, |a|)
  {
    prior[c][c] != 0.0 && e[c] * prior[c][c] == a[j][c] - Dot(prior[c], e, c)
  }

  /** Row j of ls is the row the recurrence prescribes: every earlier pivot is
      non-zero and solves its column, the diagonal is the root of the clamped
      residual, and the strict upper part is zero. */
  ghost predicate IsFactorRow(a: Matrix, sqrt: real -> real, ls: Matrix, j: nat)
    requires IsSquare(a) && j < |ls| <= |a| && RowsOfWidth(ls, |a|)
  {
    (forall k :: 0 <= k < j ==> SolvesColumn(a, ls, j, ls[j], k))
    && ls[j][j] == sqrt(Max0(Residual(a, j, ls[j])))
    && (forall k :: j < k < |a| ==> ls[j][k] == 0.0)
  }

  ghost predicate IsFactorPrefix(a: Matrix, sqrt: real -> real, ls: Matrix)
    requires IsSquare(a)
  {
    |ls| <= |a| && RowsOfWidth(ls, |a|) &&
    forall j :: 0 <= j < |ls| ==> IsFactorRow(a, sqrt, ls, j)
  }

  /** L * L^T == a, entry by entry. */
  ghost predicate TimesTransposeIs(l: Matrix, a: Matrix)
    requires IsSquare(a) && |l| == |a| && RowsOfWidth(l, |a|)
  {
    forall i, j :: 0 <= i < |a| && 0 <= j < |a| ==> Dot(l[i], l[j], |a|) == a[i][j]
  }

  // ---------------------------------------------------------------- Below

  /** One more column, when its pivot is non-zero. */
  lemma BelowStep(a: Matrix, prior: Matrix, j: nat, k: nat, e: seq<real>)
    requires IsSquare(a) && j < |a| && k < j <= |prior| && RowsOfWidth(prior, |a|)
    requires Below(a, prior, j, k) == Computed(e) && prior[k][k] != 0.0
    ensures Below(a, prior, j, k + 1) ==
      Computed(e + [(a[j][k] - Dot(prior[k], e, k)) / prior[k][k]])
  {
  }

  /** A zero pivot in column k is where the whole row stops. */
  lemma BelowHalts(a: Matrix, prior: Matrix, j: nat, k: nat, e: seq<real>)
    requires IsSquare(a) && j < |a| && k < j <= |prior| && RowsOfWidth(prior, |a|)
    requires Below(a, prior, j, k) == Computed(e) && prior[k][k] == 0.0
    ensures Below(a, prior, j, j) == DividesByZero(k)
  {
    BelowPersists(a, prior, j, k + 1, j);
  }

  lemma {:induction false} BelowPersists(a: Matrix, prior: Matrix, j: nat, k: nat, k': nat)
    requires IsSquare(a) && j < |a| && k <= k' <= j <= |prior| && RowsOfWidth(prior, |a|)
    requires Below(a, prior, j, k).DividesByZero?
    ensures Below(a, prior, j, k') == Below(a, prior, j, k)
  {
    if k' > k {
      BelowPersists(a, prior, j, k, k' - 1);
    }
  }

  /** y / p solves x * p == y, and is its only solution. */
  lemma DivisionSolves(x: real, y: real, p: real)
    requires p != 0.0
    ensures x == y / p <==> x * p == y
  {
  }

  /** An entry x that solves column |e0| against the entries e0 still solves
      it once appended to them. */
  lemma NewEntrySolves(a: Matrix, prior: Matrix, j: nat, e0: seq<real>, x: real)
    requires IsSquare(a) && |e0| < j < |a| && j <= |prior| && RowsOfWidth(prior, |a|)
    requires prior[|e0|][|e0|] != 0.0
    requires x * prior[|e0|][|e0|] == a[j][|e0|] - Dot(prior[|e0|], e0, |e0|)
    ensures SolvesColumn(a, prior, j, e0 + [x], |e0|)
  {
    var c := |e0|;
    var e := e0 + [x];
    assert e[c] == x;
    DotPrefix(prior[c], e0, prior[c], e, c);
  }

  /** Every computed entry solves its column of the recurrence. */
  lemma {:induction false} BelowSound(a: Matrix, prior: Matrix, j: nat, k: nat)
    requires IsSquare(a) && j < |a| && k <= j <= |prior| && RowsOfWidth(prior, |a|)
    requires Below(a, prior, j, k).Computed?
    ensures forall c :: 0 <= c < k ==> SolvesColumn(a, prior, j, Below(a, prior, j, k).e, c)
  {
    if k > 0 {
      var c := k - 1;
      BelowSound(a, prior, j, c);
      var e0 := Below(a, prior, j, c).e;
      var e := Below(a, prior, j, k).e;
      var p := prior[c][c];
      var y := a[j][c] - Dot(prior[c], e0, c);
      var x := y / p;
      assert e == e0 + [x];
      DivisionSolves(x, y, p);
      NewEntrySolves(a, prior, j, e0, x);
      forall i | 0 <= i < c
        ensures SolvesColumn(a, prior, j, e, i)
      {
        assert SolvesColumn(a, prior, j, e0, i);
        SolvesColumnFrame(a, prior, e0, prior, e, j, i);
      }
    }
  }

  /** Column c is solved alike wherever the rows and entries it reads agree. */
  lemma SolvesColumnFrame(a: Matrix, prior: Matrix, e: seq<real>, prior': Matrix, e': seq<real>, j: nat, c: nat)
    requires IsSquare(a) && c < j < |a| && RowsOfWidth(prior, |a|) && RowsOfWidth(prior', |a|)
    requires c < |e| && c < |e'| && c < |prior| && c < |prior'|
    requires prior[c] == prior'[c] && forall i :: 0 <= i <= c ==> e[i] == e'[i]
    ensures SolvesColumn(a, prior, j, e, c) <==> SolvesColumn(a, prior', j, e', c)
  {
    DotPrefix(prior[c], e, prior'[c], e', c);
  }

  /** Conversely, entries that solve the recurrence are the ones computed. */
  lemma {:induction false} BelowComplete(a: Matrix, sqrt: real -> real, ls: Matrix, j: nat, k: nat)
    requires IsSquare(a) && j < |ls| <= |a| && RowsOfWidth(ls, |a|) && k <= j
    requires IsFactorRow(a, sqrt, ls, j)
    ensures Below(a, ls[..j], j, k) == Computed(ls[j][..k])
  {
    if k > 0 {
      BelowComplete(a, sqrt, ls, j, k - 1);
      var c := k - 1;
      var p := ls[c][c];
      var e0 := ls[j][..c];
      assert SolvesColumn(a, ls, j, ls[j], c);
      DotPrefix(ls[c], e0, ls[c], ls[j], c);
      var y := a[j][c] - Dot(ls[c], e0, c);
      DivisionSolves(ls[j][c], y, p);
      assert ls[j][..k] == e0 + [ls[j][c]];
    }
  }

  /** Whether a row solves the recurrence depends only on the rows up to it. */
  lemma FactorRowExtend(a: Matrix, sqrt: real -> real, short: Matrix, long: Matrix, i: nat)
    requires IsSquare(a) && i < |short| <= |long| <= |a|
    requires RowsOfWidth(long, |a|) && short == long[..|short|]
    ensures IsFactorRow(a, sqrt, short, i) <==> IsFactorRow(a, sqrt, long, i)
  {
    forall k | 0 <= k < i
      ensures SolvesColumn(a, short, i, short[i], k) <==> SolvesColumn(a, long, i, long[i], k)
    {
      SolvesColumnFrame(a, short, short[i], long, long[i], i, k);
    }
  }

  // ---------------------------------------------------------------- Sweep

  /** A row that computes without a zero pivot and is not stopped extends
      the finished rows by its entries, the root of its clamped residual and
      zeros. */
  lemma SweepStep(a: Matrix, sqrt: real -> real, policy: Policy, ls: Matrix, e: seq<real>)
    requires IsSquare(a) && |ls| < |a|
    requires Sweep(a, sqrt, policy, |ls|) == Running(ls)
    requires Below(a, ls, |ls|, |ls|) == Computed(e)
    requires !StopsAt(policy, Residual(a, |ls|, e))
    ensures Sweep(a, sqrt, policy, |ls| + 1) == Running(ls + [FinishRow(a, sqrt, e)])
  {
  }

  /** Once the row loop has stopped or met a zero pivot, it stays there. */
  lemma {:induction false} SweepPersists(a: Matrix, sqrt: real -> real, policy: Policy, m: nat, m': nat)
    requires IsSquare(a) && m <= m' <= |a|
    requires !Sweep(a, sqrt, policy, m).Running?
    ensures Sweep(a, sqrt, policy, m') == Sweep(a, sqrt, policy, m)
  {
    if m' > m {
      SweepPersists(a, sqrt, policy, m, m' - 1);
    }
  }

  /** A zero pivot met in row |ls| is the outcome of the whole sweep. */
  lemma SweepEndsAtZeroPivot(a: Matrix, sqrt: real -> real, policy: Policy, ls: Matrix, k: nat)
    requires IsSquare(a) && |ls| < |a|
    requires Sweep(a, sqrt, policy, |ls|) == Running(ls)
    requires Below(a, ls, |ls|, |ls|) == DividesByZero(k)
    ensures Sweep(a, sqrt, policy, |a|) == ZeroPivot(k)
  {
    SweepPersists(a, sqrt, policy, |ls| + 1, |a|);
  }

  /** A row the policy stops at is the outcome of the whole sweep. */
  lemma SweepEndsAtStop(a: Matrix, sqrt: real -> real, policy: Policy, ls: Matrix, e: seq<real>)
    requires IsSquare(a) && |ls| < |a|
    requires Sweep(a, sqrt, policy, |ls|) == Running(ls)
    requires Below(a, ls, |ls|, |ls|) == Computed(e)
    requires StopsAt(policy, Residual(a, |ls|, e))
    ensures Sweep(a, sqrt, policy, |a|) == Stopped(|ls|)
  {
    SweepPersists(a, sqrt, policy, |ls| + 1, |a|);
  }

  /** `decompose` has no early exit. */
  lemma {:induction false} FactoriseNeverStops(a: Matrix, sqrt: real -> real, m: nat)
    requires IsSquare(a) && m <= |a|
    ensures !Sweep(a, sqrt, Factorise, m).Stopped?
  {
    if m > 0 {
      FactoriseNeverStops(a, sqrt, m - 1);
    }
  }

  /** The rows a certifier has filled while still running are exactly the rows
      `decompose` fills. */
  lemma {:induction false} CertifierRowsAreFactorRows(a: Matrix, sqrt: real -> real, policy: Policy, m: nat)
    requires IsSquare(a) && m <= |a|
    requires Sweep(a, sqrt, policy, m).Running?
    ensures Sweep(a, sqrt, Factorise, m) == Sweep(a, sqrt, policy, m)
  {
    if m > 0 {
      CertifierRowsAreFactorRows(a, sqrt, policy, m - 1);
    }
  }

  /** The row FinishRow builds from the computed entries solves the
      recurrence. */
  lemma FinishRowIsFactorRow(a: Matrix, sqrt: real -> real, ls: Matrix, e: seq<real>)
    requires IsSquare(a) && |ls| < |a| && RowsOfWidth(ls, |a|)
    requires Below(a, ls, |ls|, |ls|) == Computed(e)
    ensures IsFactorRow(a, sqrt, ls + [FinishRow(a, sqrt, e)], |ls|)
  {
    var j := |ls|;
    var row := FinishRow(a, sqrt, e);
    var ls' := ls + [row];
    BelowSound(a, ls, j, j);
    forall k | 0 <= k < j
      ensures SolvesColumn(a, ls', j, row, k)
    {
      assert SolvesColumn(a, ls, j, e, k);
      assert ls'[k] == ls[k];
      SolvesColumnFrame(a, ls, e, ls', row, j, k);
    }
    assert row[j] == sqrt(Max0(Residual(a, j, e)));
    DotPrefix(row, row, e, e, j);
    assert Residual(a, j, row) == Residual(a, j, e);
    assert forall k :: j < k < |a| ==> row[k] == 0.0;
    assert ls'[j] == row;
  }

  /** A factor prefix stays one when a row that solves the recurrence is
      appended. */
  lemma PrefixExtend(a: Matrix, sqrt: real -> real, ls: Matrix, row: seq<real>)
    requires IsSquare(a) && IsFactorPrefix(a, sqrt, ls) && |ls| < |a| && |row| == |a|
    requires IsFactorRow(a, sqrt, ls + [row], |ls|)
    ensures IsFactorPrefix(a, sqrt, ls + [row])
  {
    var ls' := ls + [row];
    assert ls == ls'[..|ls|];
    forall i | 0 <= i < |ls|
      ensures IsFactorRow(a, sqrt, ls', i)
    {
      FactorRowExtend(a, sqrt, ls, ls', i);
    }
  }

  /** Every finished row solves the recurrence (soundness). */
  lemma {:induction false} SweepSound(a: Matrix, sqrt: real -> real, policy: Policy, m: nat)
    requires IsSquare(a) && m <= |a|
    requires Sweep(a, sqrt, policy, m).Running?
    ensures IsFactorPrefix(a, sqrt, Sweep(a, sqrt, policy, m).rows)
  {
    if m > 0 {
      var j := m - 1;
      SweepSound(a, sqrt, policy, j);
      var ls := Sweep(a, sqrt, policy, j).rows;
      var e := Below(a, ls, j, j).e;
      assert Sweep(a, sqrt, policy, m).rows == ls + [FinishRow(a, sqrt, e)];
      FinishRowIsFactorRow(a, sqrt, ls, e);
      PrefixExtend(a, sqrt, ls, FinishRow(a, sqrt, e));
    }
  }

  /** Dropping the last row of a factor prefix leaves a factor prefix. */
  lemma PrefixShrink(a: Matrix, sqrt: real -> real, ls: Matrix)
    requires IsSquare(a) && IsFactorPrefix(a, sqrt, ls) && |ls| > 0
    ensures IsFactorPrefix(a, sqrt, ls[..|ls| - 1])
  {
    var ls0 := ls[..|ls| - 1];
    forall i | 0 <= i < |ls0|
      ensures IsFactorRow(a, sqrt, ls0, i)
    {
      FactorRowExtend(a, sqrt, ls0, ls, i);
    }
  }

  /** The last row of a factor prefix is the row FinishRow builds from its
      entries left of the diagonal, which Below computes. */
  lemma FactorRowIsFinishRow(a: Matrix, sqrt: real -> real, ls: Matrix)
    requires IsSquare(a) && IsFactorPrefix(a, sqrt, ls) && |ls| > 0
    ensures var j := |ls| - 1;
      Below(a, ls[..j], j, j) == Computed(ls[j][..j]) &&
      ls[j] == FinishRow(a, sqrt, ls[j][..j])
  {
    var j := |ls| - 1;
    assert IsFactorRow(a, sqrt, ls, j);
    BelowComplete(a, sqrt, ls, j, j);
    var e := ls[j][..j];
    DotPrefix(e, e, ls[j], ls[j], j);
    assert ls[j] == FinishRow(a, sqrt, e);
  }

  /** Rows that solve the recurrence are the rows `decompose` computes
      (completeness): the recurrence determines L uniquely. */
  lemma {:induction false} SweepComplete(a: Matrix, sqrt: real -> real, ls: Matrix)
    requires IsSquare(a) && IsFactorPrefix(a, sqrt, ls)
    ensures Sweep(a, sqrt, Factorise, |ls|) == Running(ls)
  {
    if |ls| > 0 {
      var j := |ls| - 1;
      var ls0 := ls[..j];
      PrefixShrink(a, sqrt, ls);
      SweepComplete(a, sqrt, ls0);
      FactorRowIsFinishRow(a, sqrt, ls);
      SweepStep(a, sqrt, Factorise, ls0, ls[j][..j]);
      assert ls == ls0 + [ls[j]];
    }
  }

  /** Sweep succeeds with rows ls exactly when ls solves the recurrence. */
  lemma SweepCharacterised(a: Matrix, sqrt: real -> real, ls: Matrix)
    requires IsSquare(a) && |ls| <= |a|
    ensures Sweep(a, sqrt, Factorise, |ls|) == Running(ls) <==> IsFactorPrefix(a, sqrt, ls)
  {
    if Sweep(a, sqrt, Factorise, |ls|) == Running(ls) {
      SweepSound(a, sqrt, Factorise, |ls|);
    }
    if IsFactorPrefix(a, sqrt, ls) {
      SweepComplete(a, sqrt, ls);
    }
  }

  // ---------------------------------------------------------------- the factor

  /** What `decompose` promises of L: zero above the diagonal, each diagonal
      entry the non-negative root of its clamped residual, each entry below the
      diagonal solving its column against a non-zero pivot. */
  lemma FactorProperties(a: Matrix, sqrt: real -> real)
    requires IsSqrt(sqrt) && IsSquare(a)
    requires Sweep(a, sqrt, Factorise, |a|).Running?
    ensures var l := Sweep(a, sqrt, Factorise, |a|).rows;
      (forall j, k :: 0 <= j < k < |a| ==> l[j][k] == 0.0) &&
      (forall j :: 0 <= j < |a| ==> IsRoot(l[j][j], Max0(Residual(a, j, l[j])))) &&
      (forall j, k :: 0 <= k < j < |a| ==> SolvesColumn(a, l, j, l[j], k))
  {
    var l := Sweep(a, sqrt, Factorise, |a|).rows;
    SweepSound(a, sqrt, Factorise, |a|);
    forall j | 0 <= j < |a|
      ensures forall k :: j < k < |a| ==> l[j][k] == 0.0
      ensures IsRoot(l[j][j], Max0(Residual(a, j, l[j])))
      ensures forall k :: 0 <= k < j ==> SolvesColumn(a, l, j, l[j], k)
    {
      assert IsFactorRow(a, sqrt, l, j);
    }
  }

  lemma ProductBelowDiagonal(a: Matrix, sqrt: real -> real, l: Matrix, i: nat, k: nat)
    requires IsSquare(a) && IsFactorPrefix(a, sqrt, l) && |l| == |a| && k < i < |a|
    ensures Dot(l[i], l[k], |a|) == a[i][k]
  {
    assert IsFactorRow(a, sqrt, l, k);
    assert IsFactorRow(a, sqrt, l, i);
    assert SolvesColumn(a, l, i, l[i], k);
    DotZeroTail(l[i], l[k], k, |a|);
    DotSymmetric(l[i], l[k], k);
  }

  lemma ProductOnDiagonal(a: Matrix, sqrt: real -> real, l: Matrix, j: nat)
    requires IsSqrt(sqrt) && IsSquare(a) && IsFactorPrefix(a, sqrt, l) && |l| == |a| && j < |a|
    ensures Dot(l[j], l[j], |a|) == a[j][j] <==> Residual(a, j, l[j]) >= 0.0
  {
    var row := l[j];
    assert IsFactorRow(a, sqrt, l, j);
    DotZeroTail(row, row, j, |a|);
    var p := Dot(row, row, j);
    assert IsRoot(row[j], Max0(a[j][j] - p));
    assert Dot(row, row, j + 1) == p + row[j] * row[j];
    ClampedSquare(row[j], p, a[j][j]);
  }

  /** p + r^2 == x, for r the root of the clamped x - p, exactly when x - p is
      not negative. */
  lemma ClampedSquare(r: real, p: real, x: real)
    requires IsRoot(r, Max0(x - p))
    ensures p + r * r == x <==> x - p >= 0.0
  {
  }

  /** L * L^T == A forces A to be symmetric and no residual to be clamped. */
  lemma ReconstructionNeedsResiduals(a: Matrix, sqrt: real -> real, l: Matrix)
    requires IsSqrt(sqrt) && IsSquare(a) && IsFactorPrefix(a, sqrt, l) && |l| == |a|
    requires TimesTransposeIs(l, a)
    ensures Symmetric(a) && forall j :: 0 <= j < |a| ==> Residual(a, j, l[j]) >= 0.0
  {
    var n := |a|;
    forall i, j | 0 <= i < n && 0 <= j < n ensures a[i][j] == a[j][i] {
      DotSymmetric(l[i], l[j], n);
    }
    forall j | 0 <= j < n ensures Residual(a, j, l[j]) >= 0.0 {
      ProductOnDiagonal(a, sqrt, l, j);
    }
  }

  lemma ResidualsGiveReconstruction(a: Matrix, sqrt: real -> real, l: Matrix)
    requires IsSqrt(sqrt) && IsSquare(a) && IsFactorPrefix(a, sqrt, l) && |l| == |a|
    requires Symmetric(a) && forall j :: 0 <= j < |a| ==> Residual(a, j, l[j]) >= 0.0
    ensures TimesTransposeIs(l, a)
  {
    var n := |a|;
    forall i, j | 0 <= i < n && 0 <= j < n ensures Dot(l[i], l[j], n) == a[i][j] {
      if j < i {
        ProductBelowDiagonal(a, sqrt, l, i, j);
      } else if i < j {
        ProductBelowDiagonal(a, sqrt, l, j, i);
        DotSymmetric(l[i], l[j], n);
      } else {
        ProductOnDiagonal(a, sqrt, l, j);
      }
    }
  }

  /** Reconstruction: over exact reals, the L computed by `decompose` satisfies
      L * L^T == A exactly when A is symmetric and no residual was clamped. */
  lemma Reconstruction(a: Matrix, sqrt: real -> real)
    requires IsSqrt(sqrt) && IsSquare(a)
    requires Sweep(a, sqrt, Factorise, |a|).Running?
    ensures var l := Sweep(a, sqrt, Factorise, |a|).rows;
      TimesTransposeIs(l, a) <==>
        Symmetric(a) && forall j :: 0 <= j < |a| ==> Residual(a, j, l[j]) >= 0.0
  {
    var l := Sweep(a, sqrt, Factorise, |a|).rows;
    SweepSound(a, sqrt, Factorise, |a|);
    if TimesTransposeIs(l, a) {
      ReconstructionNeedsResiduals(a, sqrt, l);
    }
    if Symmetric(a) && forall j :: 0 <= j < |a| ==> Residual(a, j, l[j]) >= 0.0 {
      ResidualsGiveReconstruction(a, sqrt, l);
    }
  }

  // ---------------------------------------------------------------- the intended certifier

  lemma RootOfPositive(r: real, x: real)
    requires IsRoot(r, x) && x > 0.0
    ensures r > 0.0
  {
  }

  ghost predicate PositiveResiduals(a: Matrix, ls: Matrix)
    requires IsSquare(a) && |ls| <= |a| && RowsOfWidth(ls, |a|)
  {
    forall j :: 0 <= j < |ls| ==> Residual(a, j, ls[j]) > 0.0
  }

  /** The residual of a finished row is the residual of its computed entries. */
  lemma FinishRowResidual(a: Matrix, sqrt: real -> real, e: seq<real>)
    requires IsSquare(a) && |e| < |a|
    ensures Residual(a, |e|, FinishRow(a, sqrt, e)) == Residual(a, |e|, e)
  {
    var row := FinishRow(a, sqrt, e);
    DotPrefix(row, row, e, e, |e|);
  }

  lemma PositiveResidualsExtend(a: Matrix, ls: Matrix, row: seq<real>)
    requires IsSquare(a) && |ls| < |a| && RowsOfWidth(ls, |a|) && |row| == |a|
    ensures PositiveResiduals(a, ls + [row]) <==>
      PositiveResiduals(a, ls) && Residual(a, |ls|, row) > 0.0
  {
    var ls' := ls + [row];
    assert ls'[|ls|] == row;
    assert forall i :: 0 <= i < |ls| ==> ls'[i] == ls[i];
  }

  /** Rows that solve the recurrence with positive residuals have non-zero
      pivots. */
  lemma PivotsNonZero(a: Matrix, sqrt: real -> real, ls: Matrix)
    requires IsSqrt(sqrt) && IsSquare(a) && IsFactorPrefix(a, sqrt, ls)
    requires PositiveResiduals(a, ls)
    ensures forall k :: 0 <= k < |ls| ==> ls[k][k] != 0.0
  {
    forall k | 0 <= k < |ls| ensures ls[k][k] != 0.0 {
      assert IsFactorRow(a, sqrt, ls, k);
      var d := Residual(a, k, ls[k]);
      assert d > 0.0;
      assert IsRoot(sqrt(Max0(d)), Max0(d));
      RootOfPositive(ls[k][k], d);
    }
  }

  /** With the intended test (reject when d <= 0) every pivot used is the root
      of a positive residual, so no division by zero is reached; and the test
      is still running exactly when the factor rows so far all have positive
      residuals. */
  lemma {:induction false} IntendedSweep(a: Matrix, sqrt: real -> real, m: nat)
    requires IsSqrt(sqrt) && IsSquare(a) && m <= |a|
    ensures !Sweep(a, sqrt, CertifyIntended, m).ZeroPivot?
    ensures Sweep(a, sqrt, CertifyIntended, m).Running? <==>
      (Sweep(a, sqrt, Factorise, m).Running? &&
       PositiveResiduals(a, Sweep(a, sqrt, Factorise, m).rows))
  {
    if m > 0 {
      var j := m - 1;
      IntendedSweep(a, sqrt, j);
      var pI := Sweep(a, sqrt, CertifyIntended, j);
      var pF := Sweep(a, sqrt, Factorise, j);
      if pI.Running? {
        var ls := pI.rows;
        CertifierRowsAreFactorRows(a, sqrt, CertifyIntended, j);
        SweepSound(a, sqrt, Factorise, j);
        PivotsNonZero(a, sqrt, ls);
        var e := Below(a, ls, j, j).e;
        var row := FinishRow(a, sqrt, e);
        SweepStep(a, sqrt, Factorise, ls, e);
        FinishRowResidual(a, sqrt, e);
        PositiveResidualsExtend(a, ls, row);
        if Residual(a, j, e) > 0.0 {
          SweepStep(a, sqrt, CertifyIntended, ls, e);
        } else {
          assert Sweep(a, sqrt, CertifyIntended, m) == Stopped(j);
        }
      } else {
        assert !Sweep(a, sqrt, CertifyIntended, m).Running?;
        FactoriseNeverStops(a, sqrt, j);
        if pF.Running? {
          var ls := pF.rows;
          if Below(a, ls, j, j).Computed? {
            var e := Below(a, ls, j, j).e;
            SweepStep(a, sqrt, Factorise, ls, e);
            PositiveResidualsExtend(a, ls, FinishRow(a, sqrt, e));
          }
        } else {
          SweepPersists(a, sqrt, Factorise, j, m);
        }
      }
    }
  }

  lemma IntendedIsDefinite(a: Matrix, sqrt: real -> real)
    requires IsSqrt(sqrt) && IsSquare(a)
    ensures Certify(a, sqrt, CertifyIntended).Definite?
  {
    IntendedSweep(a, sqrt, |a|);
  }

  /** The intended test accepts exactly when `decompose` runs through with
      every residual positive. */
  lemma IntendedAccepts(a: Matrix, sqrt: real -> real)
    requires IsSqrt(sqrt) && IsSquare(a)
    ensures Certify(a, sqrt, CertifyIntended) == Definite(true) <==>
      (Sweep(a, sqrt, Factorise, |a|).Running? &&
       PositiveResiduals(a, Sweep(a, sqrt, Factorise, |a|).rows))
  {
    IntendedSweep(a, sqrt, |a|);
  }

  /** A symmetric matrix the intended test accepts is factored exactly:
      `decompose` returns an L with L * L^T == A and a positive diagonal. */
  lemma IntendedAcceptanceGivesFactor(a: Matrix, sqrt: real -> real)
    requires IsSqrt(sqrt) && IsSquare(a) && Symmetric(a)
    requires Certify(a, sqrt, CertifyIntended) == Definite(true)
    ensures Sweep(a, sqrt, Factorise, |a|).Running?
    ensures var l := Sweep(a, sqrt, Factorise, |a|).rows;
      TimesTransposeIs(l, a) && forall j :: 0 <= j < |a| ==> l[j][j] > 0.0
  {
    IntendedAccepts(a, sqrt);
    Reconstruction(a, sqrt);
    var l := Sweep(a, sqrt, Factorise, |a|).rows;
    SweepSound(a, sqrt, Factorise, |a|);
    forall j | 0 <= j < |a| ensures l[j][j] > 0.0 {
      assert IsFactorRow(a, sqrt, l, j);
      RootOfPositive(l[j][j], Residual(a, j, l[j]));
    }
  }
}
